=== FILE: README.md ===
# Spiral primes, modelled in Dafny

SpiralPrimesJS draws an Ulam spiral. The numbers 0, 1, 2, … are laid out on a
square spiral of rectangles around a center point, and the primes are
coloured. The core of the program has three parts:

- the `Directions` generator. It is a two-armed state machine. The first call
  returns CENTER. After that it returns runs of LEFT, UP, RIGHT and DOWN of
  lengths 1, 1, 2, 2, 3, 3, …;
- the `Primes` class. It finds the least factor of a number by trial division
  with a 2-3-5 wheel, and tests primality with it;
- the drawing loop of `SpiralPrimeGenerator`. For each number below the limit,
  it takes the next direction and frames a rectangle one rectangle-size
  against that direction's vector. It then colours the rectangle by the
  primality test.

The model has five modules:

- `Directions` holds the walker state, one arm step, one generator call, the
  vector table and the walker invariant.
- `RunLengths` gives a run-length description of the directions that does
  not depend on the walker, and proves that the walker produces exactly that
  description.
- `Lattice` sums the vectors into cells and numbers every lattice point by
  its ring. That numbering inverts the walk, so no cell is visited twice.
- `Primes` holds the least-factor algorithm and the primality test.
- `Spiral` holds the drawing loop, with the canvas replaced by a sequence of
  recorded events `(number, position, isPrime)`.

Integers are unbounded. The source's `Math.sqrt` bound `i <= sqrt(n)` is
modelled as `i * i <= n`, which is the same condition for a natural number `i`.
The canvas, the clock and the timer are not modelled; "## Left out" lists them.

## Model

| member | source | states |
|---|---|---|
| `Directions.Vector` | spiralPrimes.js:101-107 | Every vector has components in -1..1 with at least one of them zero. CENTER is exactly the zero vector, every other direction moves along exactly one axis, and LEFT and RIGHT are exactly the directions that move along x. |
| `Directions.Init` | spiralPrimes.js:51-68 | A fresh generator is in its initial state with the left arm active, multiplier 1 and queue [LEFT, UP]. |
| `Directions.InitValid` | spiralPrimes.js:51-68 | The fresh generator satisfies the walker invariant: both arm templates, odd and even multipliers, the waiting arm full, and the right multiplier one above the left. |
| `Directions.ArmStep` | spiralPrimes.js:82-98 | One arm step returns the head of the queue. With repetitions left it only counts down and keeps the queue. With the count exhausted it pops the queue and resets the count to multiplier - 1. The queue is refilled from the template exactly when the count is exhausted and one direction is left, and only then does the multiplier grow, by 2. The template never changes. |
| `Directions.ArmStepKeepsInv` | spiralPrimes.js:82-98 | An arm step keeps the count in 0..multiplier-1 and the queue a non-empty suffix of its template. |
| `Directions.Step` | spiralPrimes.js:70-80 | The first call returns CENTER and only clears the initial flag. Every later call returns the head of the active arm's queue, replaces the active arm by its arm step and leaves the other arm untouched. The active side flips exactly when the active arm's count is exhausted and its queue holds one direction. |
| `Directions.StepValid` | spiralPrimes.js:70-98 | Every call keeps the walker invariant. A call returns CENTER exactly when it is the first, and afterwards LEFT/UP exactly when the left arm is active. |
| `Directions.StateAtValid` | spiralPrimes.js:51-98 | Every state the generator reaches from construction satisfies the invariant, so `shift()` is never applied to an empty queue. |
| `Directions.WalkCenterOnlyFirst` | spiralPrimes.js:70-74 | Among the first n directions, CENTER is exactly the first. |
| `Directions.ArmsEmitTheirOwnDirections` | spiralPrimes.js:75-79 | After the first call, a direction is LEFT or UP exactly when the left arm was active, and RIGHT or DOWN exactly when the right arm was. |
| `RunLengths.RunsAreMaximal` | spiralPrimes.js:82-98 | Adjacent runs have different directions, and run lengths grow by one after every second run (1, 1, 2, 2, …). |
| `RunLengths.InRunDir` | spiralPrimes.js:82-98 | While the walker is inside run r, each call returns the direction of run r. |
| `RunLengths.InRunCountDown` | spiralPrimes.js:94-96 | While repetitions of a run remain, a call stays in the run and only counts down. |
| `RunLengths.InRunHandOver` | spiralPrimes.js:83-93 | After the last repetition of run r, the next call is the first of run r + 1: the arm owning that run's direction is active, its multiplier is the new run length, and its count is full. Odd runs pop the queue of the same arm; even runs hand over to the other arm. |
| `RunLengths.CallInRun` | spiralPrimes.js:70-98 | Call 1 + Start(r) + s of a fresh generator is call s of run r, with RunLen(r) - 1 - s repetitions still to come. |
| `RunLengths.WalkerFollowsRuns` | spiralPrimes.js:70-98 | Call k returns the direction the run-length description gives for position k. |
| `RunLengths.WalkIsReference` | spiralPrimes.js:70-98 | The first n directions are exactly CENTER followed by runs of lengths 1, 1, 2, 2, 3, 3, … cycling LEFT, UP, RIGHT, DOWN. |
| `RunLengths.FirstThirteen` | spiralPrimes.js:70-98 | The first thirteen calls return C, L, U, R, R, D, D, L, L, L, U, U, U. |
| `Lattice.CellAlong` | spiralPrimes.js:101-107 | The cell reached by call i + 1 lies on the edge of its ring that its run walks along, i.e. offset + 1 steps into that run from the previous run's last cell. |
| `Lattice.IndexOfCell` | spiralPrimes.js:101-107 | The ring numbering of the cell reached by call k is k, so the numbering inverts the walk. |
| `Lattice.CellsDistinct` | spiralPrimes.js:101-107 | Different calls reach different cells. |
| `Lattice.CellSteps` | spiralPrimes.js:101-107 | Every call after the first moves exactly one cell along one axis. |
| `Primes.WheelCoversCoprimeResidues` | spiralPrimes.js:129-137 | The eight offsets tried in one wheel pass are exactly the residues j in 0..29 for which 7 + j is coprime to 30. |
| `Primes.WheelPass` | spiralPrimes.js:130-137 | One pass tries i, i+4, …, i+24 in order. A hit is the least factor; with no hit, nothing below i + 30 divides the number. |
| `Primes.NoSmallFactorMeansPrime` | spiralPrimes.js:128-139 | If nothing below i divides n and i * i > n, then n has no factor below itself. This justifies stopping at the square root. |
| `Primes.LeastFactor` | spiralPrimes.js:121-140 | The result is 0 for 0 and 1 for 1. For every other n it is the least divisor of n that is at least 2. |
| `Primes.LeastFactorUnique` | spiralPrimes.js:121-140 | There is only one least factor, so the contract of `LeastFactor` determines its result. |
| `Primes.LeastFactorIsPrime` | spiralPrimes.js:121-140 | The least factor of a number of at least 2 is prime. |
| `Primes.LeastFactorExamples` | spiralPrimes.js:121-140 | The least factor of 49 is 7, that of 97 is 97, that of 0 is 0 and that of 1 is 1. |
| `Primes.LeastFactorSamples` | spiralPrimes.js:121-140 | Running the least-factor algorithm gives 7 for 49, 97 for 97, 0 for 0 and 1 for 1. |
| `Primes.IsPrime` | spiralPrimes.js:115-118 | The test answers true exactly for prime numbers, so false for every number below 2. |
| `Primes.IsPrimeSamples` | spiralPrimes.js:115-118 | Running the primality test answers false for 0, 1 and 49 and true for 2 and 97. |
| `Primes.PrimeIffOwnLeastFactor` | spiralPrimes.js:115-118 | A number of at least 2 is prime exactly when it is its own least factor. |
| `Spiral.Move` | spiralPrimes.js:190-198 | Framing the next rectangle keeps the position for CENTER and otherwise moves it by exactly one rectangle-size along one axis: along x for LEFT and RIGHT, along y for UP and DOWN. The move goes against the direction's vector, so LEFT and UP decrease the coordinate and RIGHT and DOWN increase it. |
| `Spiral.MoveToCell` | spiralPrimes.js:190-198 | Framing rectangle k one size-step against the vector of direction k, from the previous rectangle (or from the center for k = 0), lands on the place of cell k. Both axes are mirrored and scaled by the size. |
| `Spiral.NextDirection` | spiralPrimes.js:220-223 | Each loop pass takes the direction of call `number` of the one generator created before the loop. |
| `Spiral.DrawRectangle` | spiralPrimes.js:205-213 | A rectangle is framed one size-step from the current position against the direction's vector, and it is coloured prime exactly when its number is prime. |
| `Spiral.DrawNext` | spiralPrimes.js:217-224 | One loop pass records the event for `number` and leaves the generator and the position ready for the next number. |
| `Spiral.DrawSpiral` | spiralPrimes.js:215-226 | Exactly max(limit, 0) events are recorded. Event i carries the number i, the place of cell i, and whether i is prime. |
| `Spiral.FirstAtCenter` | spiralPrimes.js:216-223 | The rectangle for number 0 is drawn at the center. |
| `Spiral.DrawnAdjacent` | spiralPrimes.js:193-195 | Each rectangle after the first is one rectangle-size from its predecessor along one axis. |
| `Spiral.DrawnDistinct` | spiralPrimes.js:193-212 | With a non-zero size, no two rectangles are drawn at the same place. |
| `Spiral.SpiralShape` | spiralPrimes.js:215-226 | Any record the loop produces starts at the center and moves one size-step along one axis at a time. With a non-zero size it never repeats a place. |

## Left out

- Canvas drawing is not modelled: stroke and fill styles, line widths, fonts, number labels (`printRectangleNumber`, `colorRectangle`, `drawBackground`) and the canvas calls. A drawn rectangle is recorded as an event instead.
- Animation is not modelled. The `setTimeout` branch of `drawSpiral` defers the same calls, in the same order, so it records the same events.
- `run` and the timer are not modelled: they read the clock and write to the console.
- `reset`, `setOffset`, `setOptions` and the derivation of the center from the canvas size are not modelled. The center and the rectangle size are plain parameters of `DrawSpiral`.
- JavaScript numbers are not modelled: NaN, infinities, fractions and floating-point `Math.sqrt` have no counterpart. Numbers are natural numbers and positions are integer points.
- Primes.LeastFactor: covers natural numbers only. It does not model the source's NaN result for NaN or infinite input, its answer of 1 for fractional input, or its answers for negative input.
- Primes.IsPrime: covers natural numbers only. It does not model the source's false for NaN, infinite or fractional input.
- Directions.ArmStep: requires a non-empty queue, where the source would `shift()` an undefined direction from an empty one. `Directions.StateAtValid` shows that no reachable state has an empty queue.
- Spiral.DrawSpiral: the source does not check `limit` or the rectangle size. A limit of zero or less draws nothing, and any size is accepted. The model follows the code; it does not report an error before drawing.
- Spiral.DrawnDistinct: holds only for a non-zero size, because a size of 0 draws every rectangle at the center.
- Lattice: cells are defined from the run-length description. `RunLengths.WalkerFollowsRuns` connects them to the generator, and `Spiral.MoveToCell` connects them to the positions the loop computes.

=== FILE: directions.dfy ===
/** The spiral walker: a two-armed state machine that emits the direction of
    every step of an outward square spiral, and the unit vector of each
    direction. The left arm emits LEFT/UP with odd run multipliers 1, 3, 5, ...;
    the right arm emits RIGHT/DOWN with even multipliers 2, 4, 6, ... The very
    first step is CENTER. */
module Directions {

  datatype Dir = Center | Left | Up | Right | Down

  /** An integer point; used both for unit vectors and for positions. */
  datatype Point = Point(x: int, y: int)

  /** The vector table. LEFT and RIGHT are mirrored with respect to their
      names (LEFT is +x); the driver subtracts the vector from the position,
      so a LEFT step decreases x. */
  function Vector(d: Dir): (v: Point)
    ensures -1 <= v.x <= 1 && -1 <= v.y <= 1
    ensures v.x == 0 || v.y == 0
    ensures d == Center <==> v == Point(0, 0)
    ensures d != Center ==> (v.x == 0) != (v.y == 0)
    ensures d == Left || d == Right <==> v.x != 0
  {
    match d
    case Down => Point(0, -1)
    case Up => Point(0, 1)
    case Right => Point(-1, 0)
    case Left => Point(1, 0)
    case Center => Point(0, 0)
  }

  /** `q` is `p` moved by the vector of `d`. */
  predicate Moves(p: Point, q: Point, d: Dir)
  {
    q.x == p.x + Vector(d).x && q.y == p.y + Vector(d).y
  }

  /** A move in a given direction has exactly one destination. */
  lemma {:induction false} MovesUnique(p: Point, q: Point, q': Point, d: Dir)
    requires Moves(p, q, d) && Moves(p, q', d)
    ensures q == q'
  {
  }

  const LeftDirs: seq<Dir> := [Left, Up]
  const RightDirs: seq<Dir> := [Right, Down]

  /** One arm: its run multiplier, the count-down of repetitions still to emit
      for the head of the queue, the queue of pending directions and the
      template the queue is refilled from. */
  datatype Arm = Arm(multiplier: int, count: int, dirs: seq<Dir>, store: seq<Dir>)

  datatype Walker = Walker(left: Arm, right: Arm, isLeft: bool, isInitial: bool)

  /** What one arm step produces: the updated arm, the emitted direction, and
      whether the queue emptied (and was refilled), which hands control to the
      other arm. */
  datatype ArmOutcome = ArmOutcome(arm: Arm, dir: Dir, refilled: bool)

  datatype StepResult = StepResult(next: Walker, dir: Dir)

  /** `dirs` is a non-empty suffix of `store`. */
  predicate IsNonEmptySuffix(dirs: seq<Dir>, store: seq<Dir>)
  {
    0 < |dirs| <= |store| && dirs == store[|store| - |dirs|..]
  }

  /** A positive multiplier and a count below it. */
  predicate CountInRange(a: Arm)
  {
    a.multiplier >= 1 && 0 <= a.count < a.multiplier
  }

  /** The shape an arm step keeps: the count in range and the queue a
      non-empty suffix of the template. */
  predicate ArmInv(a: Arm)
  {
    CountInRange(a) && IsNonEmptySuffix(a.dirs, a.store)
  }

  /** An arm that is waiting for its turn: a full queue and a full count. */
  predicate Fresh(a: Arm)
  {
    a.count == a.multiplier - 1 && a.dirs == a.store
  }

  function Active(w: Walker): Arm
  {
    if w.isLeft then w.left else w.right
  }

  /** The arm on the given side. */
  function ArmOf(w: Walker, leftSide: bool): Arm
  {
    if leftSide then w.left else w.right
  }

  /** The shape of an arm in a reachable state: the count in range, its
      two-direction template, the parity of its multiplier, and a queue that
      is the whole template or its last element (a non-empty suffix of the
      template, as `ArmInv` asks). */
  predicate ArmShape(a: Arm, store: seq<Dir>, parity: int)
  {
    && CountInRange(a)
    && |store| == 2
    && a.store == store
    && a.multiplier % 2 == parity
    && (a.dirs == store || a.dirs == [store[1]])
  }

  /** The invariant of every state reachable from `Init()`. */
  predicate Valid(w: Walker)
  {
    && ArmShape(w.left, LeftDirs, 1)
    && ArmShape(w.right, RightDirs, 0)
    && (if w.isLeft
        then Fresh(w.right) && w.right.multiplier == w.left.multiplier + 1
        else Fresh(w.left) && w.left.multiplier == w.right.multiplier + 1)
    && (w.isInitial ==> w.isLeft && w.left.multiplier == 1 && Fresh(w.left))
  }

  /** The freshly constructed walker. */
  function Init(): (w: Walker)
    ensures w.isInitial && w.isLeft
    ensures Active(w).multiplier == 1 && Active(w).dirs == LeftDirs
  {
    Walker(Arm(1, 0, LeftDirs, LeftDirs), Arm(2, 1, RightDirs, RightDirs), true, true)
  }

  lemma {:induction false} InitValid()
    ensures Valid(Init())
  {
  }

  /** One step of an arm. With the count exhausted the head of the queue is
      popped; if that empties the queue it is refilled from the template and
      the multiplier grows by two. Otherwise the count goes down by one and
      the head is emitted again. */
  function ArmStep(a: Arm): (r: ArmOutcome)
    requires a.dirs != []
    ensures r.dir == a.dirs[0]
    ensures r.arm.store == a.store
    ensures r.refilled <==> a.count <= 0 && |a.dirs| == 1
    ensures r.arm.multiplier == if r.refilled then a.multiplier + 2 else a.multiplier
    ensures r.arm.multiplier % 2 == a.multiplier % 2
    ensures r.refilled ==> r.arm.dirs == a.store
    ensures !r.refilled ==> r.arm.dirs == if a.count <= 0 then a.dirs[1..] else a.dirs
    ensures r.arm.count == if a.count <= 0 then r.arm.multiplier - 1 else a.count - 1
  {
    if a.count <= 0 then
      var rest := a.dirs[1..];
      if rest == [] then
        var m := a.multiplier + 2;
        ArmOutcome(Arm(m, m - 1, a.store, a.store), a.dirs[0], true)
      else
        ArmOutcome(a.(dirs := rest, count := a.multiplier - 1), a.dirs[0], false)
    else
      ArmOutcome(a.(count := a.count - 1), a.dirs[0], false)
  }

  /** An arm step keeps the count non-negative and below the multiplier, and
      the queue a non-empty suffix of the template. */
  lemma {:induction false} ArmStepKeepsInv(a: Arm)
    requires ArmInv(a)
    ensures ArmInv(ArmStep(a).arm)
  {
  }

  /** One call of the generator: CENTER the first time, then a step of the
      active arm, which flips the active side when its queue empties. */
  function Step(w: Walker): (r: StepResult)
    requires w.isInitial || Active(w).dirs != []
    ensures !r.next.isInitial
    ensures w.isInitial ==> r.dir == Center && r.next == w.(isInitial := false)
    ensures !w.isInitial ==> r.dir == Active(w).dirs[0]
    ensures !w.isInitial ==> ArmOf(r.next, w.isLeft) == ArmStep(Active(w)).arm
    ensures !w.isInitial ==> ArmOf(r.next, !w.isLeft) == ArmOf(w, !w.isLeft)
    ensures r.next.isLeft != w.isLeft <==>
              !w.isInitial && Active(w).count <= 0 && |Active(w).dirs| == 1
    ensures !w.isInitial ==>
              ArmOf(r.next, w.isLeft).multiplier ==
              Active(w).multiplier + (if r.next.isLeft != w.isLeft then 2 else 0)
  {
    if w.isInitial then
      StepResult(w.(isInitial := false), Center)
    else if w.isLeft then
      var o := ArmStep(w.left);
      StepResult(w.(left := o.arm, isLeft := if o.refilled then !w.isLeft else w.isLeft), o.dir)
    else
      var o := ArmStep(w.right);
      StepResult(w.(right := o.arm, isLeft := if o.refilled then !w.isLeft else w.isLeft), o.dir)
  }

  /** Every step keeps the walker invariant; after the first call the left
      arm emits only LEFT/UP and the right arm only RIGHT/DOWN. */
  lemma {:induction false} StepValid(w: Walker)
    requires Valid(w)
    ensures Valid(Step(w).next)
    ensures Step(w).dir == Center <==> w.isInitial
    ensures !w.isInitial ==> (Step(w).dir in LeftDirs <==> w.isLeft)
    ensures !w.isInitial ==> (Step(w).dir in RightDirs <==> !w.isLeft)
  {
  }

  /** The walker state before call number `k` (counting from 0) of a fresh
      walker. */
  function StateAt(k: nat): (w: Walker)
    ensures w.isInitial <==> k == 0
    decreases k, 0
  {
    if k == 0 then
      Init()
    else
      var prev := StateAt(k - 1);
      StateAtValid(k - 1);
      StepValid(prev);
      Step(prev).next
  }

  /** Every state reached by the walker satisfies the invariant. */
  lemma {:induction false} StateAtValid(k: nat)
    ensures Valid(StateAt(k))
    decreases k, 1
  {
    if k == 0 {
      InitValid();
    } else {
      StateAtValid(k - 1);
      StepValid(StateAt(k - 1));
    }
  }

  /** Call `k1` = k + 1 starts from the state call `k` leaves behind.
      The successor is passed as its own parameter `k1` so that callers
      name both states without the verifier unfolding `StateAt(k + 1)`. */
  lemma {:induction false} StateAtStep(k: nat, k1: nat)
    requires k1 == k + 1
    ensures Valid(StateAt(k)) && StateAt(k1) == Step(StateAt(k)).next
  {
    StateAtValid(k);
  }

  /** The direction returned by call number `k` of a fresh walker. */
  function DirAt(k: nat): (d: Dir)
    ensures d == Center <==> k == 0
  {
    var w := StateAt(k);
    StateAtValid(k);
    StepValid(w);
    Step(w).dir
  }

  /** The first `n` directions of a fresh walker. */
  function Walk(n: nat): (ds: seq<Dir>)
    ensures |ds| == n
  {
    seq(n, (k: int) requires 0 <= k => DirAt(k))
  }

  /** CENTER is the first direction and no later call returns it. */
  lemma {:induction false} WalkCenterOnlyFirst(n: nat)
    ensures forall i :: 0 <= i < n ==> (Walk(n)[i] == Center <==> i == 0)
  {
  }

  /** After the first call every direction is LEFT or UP exactly when the
      left arm was active. */
  lemma {:induction false} ArmsEmitTheirOwnDirections(k: nat)
    requires k > 0
    ensures DirAt(k) in LeftDirs <==> StateAt(k).isLeft
    ensures DirAt(k) in RightDirs <==> !StateAt(k).isLeft
  {
    StateAtValid(k);
    StepValid(StateAt(k));
  }
}

=== FILE: lattice.dfy ===
/** The cells visited by the walker. Cell `k` is the sum of the unit vectors
    of the first `k + 1` directions, so cell 0 is the origin (CENTER has the
    zero vector). The spiral is laid out in square rings: ring `t` starts at
    the corner (-t, -t) and holds 8t + 6 cells, and `Index` numbers every
    lattice point by the call that reaches it. `Index` inverts `CellAt`,
    which makes all cells distinct. */
module Lattice {
  import opened Directions
  import opened RunLengths

  /** The cell reached by call `k`: the sum of the vectors of the first
      k + 1 directions of the run-length description. */
  function CellAt(k: nat): (p: Point)
    ensures -(k as int) <= p.x <= k && -(k as int) <= p.y <= k
  {
    if k == 0 then Point(0, 0)
    else
      var c, v := CellAt(k - 1), Vector(RefDir(k));
      Point(c.x + v.x, c.y + v.y)
  }

  /** The ring of a lattice point. */
  function Shell(p: Point): (t: int)
    ensures t >= 0
    ensures -t <= p.y <= t + 1 && -t - 1 <= p.x <= t + 1
    ensures p.y == -t || p.x == t + 1 || p.y == t + 1 || p.x == -t - 1
  {
    var a := if -p.y > p.x - 1 then -p.y else p.x - 1;
    var b := if p.y - 1 > -p.x - 1 then p.y - 1 else -p.x - 1;
    if a > b then a else b
  }

  /** The call that reaches point `p`: the number of cells in the rings
      inside it, plus its position along its own ring, which runs along the
      bottom edge, up the right edge, back along the top edge and down the
      left edge. */
  function Index(p: Point): (n: int)
    ensures n >= 0
  {
    var t := Shell(p);
    var along :=
      if p.y == -t && -t <= p.x then p.x + t
      else if p.x == t + 1 then 3 * t + 1 + p.y
      else if p.y == t + 1 then 5 * t + 3 - p.x
      else 7 * t + 5 - p.y;
    4 * t * t + 2 * t + along
  }

  /** The point reached by the direction at position `q`: q.offset + 1
      steps into run q.run, counted from the last cell of the previous run.
      Runs 4t go right along the bottom edge of ring t from (-t, -t), runs
      4t + 1 up its right edge, runs 4t + 2 left along its top edge and runs
      4t + 3 down its left edge. */
  function Along(q: RunPos): (p: Point)
  {
    var t, n := q.run / 4, q.offset + 1;
    match q.run % 4
    case 0 => Point(-t + n, -t)
    case 1 => Point(t + 1, -t + n)
    case 2 => Point(t + 1 - n, t + 1)
    case _ => Point(-t - 1, t + 1 - n)
  }

  /** The number of directions before run `r`, in closed form: the rings
      inside ring t = r / 4 hold 4t^2 + 2t of them, and each edge of ring t
      before run r adds its own run length. */
  function ClosedStart(r: nat): int
  {
    var t := r / 4;
    4 * t * t + 2 * t + (match r % 4
                         case 0 => 0
                         case 1 => 2 * t + 1
                         case 2 => 4 * t + 2
                         case _ => 6 * t + 4)
  }

  /** The closed form grows by one run length from one run to the next. */
  lemma {:induction false} ClosedStartStep(r: nat, r': nat)
    requires r' == r + 1
    ensures ClosedStart(r') == ClosedStart(r) + RunLen(r)
  {
    var t, q := r / 4, r % 4;
    assert r / 2 == 2 * t + q / 2;
    if q == 3 {
      assert r' / 4 == t + 1 && r' % 4 == 0;
      assert (t + 1) * (t + 1) == t * t + 2 * t + 1;
    } else {
      assert r' / 4 == t && r' % 4 == q + 1;
    }
  }

  /** `Start` agrees with its closed form. */
  lemma {:induction false} StartClosed(r: nat)
    ensures Start(r) == ClosedStart(r)
  {
    if r > 0 {
      StartClosed(r - 1);
      StartClosedNext(r - 1, r);
    } else {
      StartClosedZero(r);
    }
  }

  /** The base case, stated for `r < 1` rather than for the literal 0:
      literal arguments make the verifier unfold `Start` and `ClosedStart`
      repeatedly. */
  lemma {:induction false} StartClosedZero(r: nat)
    requires r < 1
    ensures Start(r) == ClosedStart(r)
  {
    assert r == 0;
  }

  lemma {:induction false} StartClosedNext(r: nat, r': nat)
    requires r' == r + 1 && Start(r) == ClosedStart(r)
    ensures Start(r') == ClosedStart(r')
  {
    StartStep(r, r');
    ClosedStartStep(r, r');
  }

  /** The next position in the same run is one step further along it. */
  lemma {:induction false} AlongStep(p: RunPos, q: RunPos)
    requires q.run == p.run && q.offset == p.offset + 1
    ensures Moves(Along(p), Along(q), RunDir(q.run))
  {
  }

  /** The first position of a run is one step on from the last position of
      the run before it: each run ends at the corner where the next one
      turns. */
  lemma {:induction false} AlongEnd(p: RunPos, q: RunPos)
    requires q.run == p.run + 1 && q.offset == 0 && p.offset + 1 == RunLen(p.run)
    ensures Moves(Along(p), Along(q), RunDir(q.run))
  {
    var t := p.run / 4;
    if p.run % 4 == 3 {
      assert q.run / 4 == t + 1;
    } else {
      assert q.run / 4 == t;
    }
    assert p.run / 2 == 2 * t + (p.run % 4) / 2;
  }

  /** Call `k` = i + 1 moves from the cell of call `i` by the vector of the
      run that direction `i` after CENTER belongs to. */
  lemma {:induction false} CellStep(i: nat, k: nat)
    requires k == i + 1
    ensures Moves(CellAt(i), CellAt(k), RunDir(RunAt(i).run))
  {
    assert RefDir(k) == RunDir(RunAt(i).run);
  }

  /** Call k = i + 1 reaches the point of the position of direction `i`
      after CENTER. */
  lemma {:induction false} CellAlong(i: nat, k: nat)
    requires k == i + 1
    ensures CellAt(k) == Along(RunAt(i))
    decreases i
  {
    var q := RunAt(i);
    if i > 0 {
      var h := i - 1;
      CellAlong(h, i);
      CellNext(RunAt(h), q, h, i, k);
    } else {
      FirstCell(i, k, q);
    }
  }

  /** The one concrete fact about the first cell. The lemmas below reach it
      through variables constrained by `requires` (`i < 1`, `k == 1`) instead
      of literals, for the same reason as `StartClosedZero`. */
  lemma {:induction false} FirstCellValue()
    ensures CellAt(1) == Along(RunPos(0, 0))
  {
  }

  /** The first direction after CENTER moves from the origin to the first
      point of run 0. */
  lemma {:induction false} FirstCell(i: nat, k: nat, q: RunPos)
    requires i < 1 && k == i + 1 && q == RunAt(i)
    ensures CellAt(k) == Along(q)
  {
    RunAtZero(i, q);
    FirstCellAt(k, q);
  }

  lemma {:induction false} FirstCellAt(k: nat, q: RunPos)
    requires k == 1 && q == RunPos(0, 0)
    ensures CellAt(k) == Along(q)
  {
    FirstCellValue();
  }

  lemma {:induction false} RunAtZero(i: nat, q: RunPos)
    requires i < 1 && q == RunAt(i)
    ensures q == RunPos(0, 0)
  {
  }

  /** Each later direction moves one step further along its run, or turns
      into the next run. */
  lemma {:induction false} CellNext(p: RunPos, q: RunPos, h: nat, i: nat, k: nat)
    requires i == h + 1 && k == i + 1 && p == RunAt(h) && q == RunAt(i)
    requires CellAt(i) == Along(p)
    ensures CellAt(k) == Along(q)
  {
    RunAtNext(h, i);
    CellStep(i, k);
    if p.offset + 1 < RunLen(p.run) {
      AlongStep(p, q);
    } else {
      AlongEnd(p, q);
    }
    MovesUnique(CellAt(i), CellAt(k), Along(q), RunDir(q.run));
  }

  lemma {:induction false} IndexBottom(t: int, n: int)
    requires t >= 0 && 1 <= n <= 2 * t + 1
    ensures Index(Point(-t + n, -t)) == 4 * t * t + 2 * t + n
  {
    assert Shell(Point(-t + n, -t)) == t;
  }

  lemma {:induction false} IndexRight(t: int, n: int)
    requires t >= 0 && 1 <= n <= 2 * t + 1
    ensures Index(Point(t + 1, -t + n)) == 4 * t * t + 4 * t + 1 + n
  {
    assert Shell(Point(t + 1, -t + n)) == t;
  }

  lemma {:induction false} IndexTop(t: int, n: int)
    requires t >= 0 && 1 <= n <= 2 * t + 2
    ensures Index(Point(t + 1 - n, t + 1)) == 4 * t * t + 6 * t + 2 + n
  {
    assert Shell(Point(t + 1 - n, t + 1)) == t;
  }

  /** The left edge of ring `t` ends at the corner (-t - 1, -t - 1), which
      is the first point of ring t + 1. */
  lemma {:induction false} IndexLeft(t: int, n: int)
    requires t >= 0 && 1 <= n <= 2 * t + 2
    ensures Index(Point(-t - 1, t + 1 - n)) == 4 * t * t + 8 * t + 4 + n
  {
    if n <= 2 * t + 1 {
      assert Shell(Point(-t - 1, t + 1 - n)) == t;
    } else {
      assert Shell(Point(-t - 1, t + 1 - n)) == t + 1;
      assert (t + 1) * (t + 1) == t * t + 2 * t + 1;
    }
  }

  /** The points of a run are numbered consecutively from the start of the
      run. */
  lemma {:induction false} IndexInRun(q: RunPos)
    requires q.offset < RunLen(q.run)
    ensures Index(Along(q)) == Start(q.run) + q.offset + 1
  {
    var r := q.run;
    StartClosed(r);
    var t, n := r / 4, q.offset + 1;
    assert r / 2 == 2 * t + (r % 4) / 2;
    if r % 4 == 0 {
      assert Along(q) == Point(-t + n, -t);
      IndexBottom(t, n);
    } else if r % 4 == 1 {
      assert Along(q) == Point(t + 1, -t + n);
      IndexRight(t, n);
    } else if r % 4 == 2 {
      assert Along(q) == Point(t + 1 - n, t + 1);
      IndexTop(t, n);
    } else {
      assert Along(q) == Point(-t - 1, t + 1 - n);
      IndexLeft(t, n);
    }
  }

  /** The origin is numbered 0 (stated for `k < 1`, as the base cases
      above). */
  lemma {:induction false} IndexOrigin(k: nat)
    requires k < 1
    ensures Index(CellAt(k)) == k
  {
    assert CellAt(k) == Point(0, 0);
    assert Shell(Point(0, 0)) == 0;
  }

  /** `Index` inverts `CellAt`: the cell of call `k` is numbered `k`. */
  lemma {:induction false} IndexOfCell(k: nat)
    ensures Index(CellAt(k)) == k
  {
    if k > 0 {
      IndexOfLaterCell(k - 1, k);
    } else {
      IndexOrigin(k);
    }
  }

  lemma {:induction false} IndexOfLaterCell(i: nat, k: nat)
    requires k == i + 1
    ensures Index(CellAt(k)) == k
  {
    CellAlong(i, k);
    IndexInRun(RunAt(i));
  }

  /** No two calls reach the same cell. */
  lemma {:induction false} CellsDistinct(i: nat, j: nat)
    requires i != j
    ensures CellAt(i) != CellAt(j)
  {
    IndexOfCell(i);
    IndexOfCell(j);
  }

  /** Every call after the first moves exactly one cell along one axis. */
  lemma {:induction false} CellSteps(k: nat)
    requires k > 0
    ensures UnitStep(CellAt(k - 1), CellAt(k))
  {
  }

  /** `q` is one of the four lattice neighbours of `p`. */
  predicate UnitStep(p: Point, q: Point)
  {
    || (p.x == q.x && (q.y == p.y + 1 || q.y == p.y - 1))
    || (p.y == q.y && (q.x == p.x + 1 || q.x == p.x - 1))
  }
}

=== FILE: primes.dfy ===
/** Trial division with a 2-3-5 wheel: the least factor of a number and the
    primality test built on it. Numbers are natural numbers; the guards of the JavaScript
    `Primes.leastFactor` for NaN, infinities and fractions have no
    counterpart here. */
module Primes {

  /** No `k` with 2 <= k < bound divides `n`. */
  predicate NoFactorBelow(n: nat, bound: int)
  {
    forall k :: 2 <= k < bound ==> n % k != 0
  }

  /** Mathematical primality. */
  predicate Prime(n: nat)
  {
    n >= 2 && NoFactorBelow(n, n)
  }

  /** `d` is the least factor of `n`, with the conventions of the JavaScript
      `Primes.leastFactor` for 0 and 1 (their least factors are 0 and 1). */
  predicate IsLeastFactor(n: nat, d: nat)
  {
    if n == 0 then d == 0
    else if n == 1 then d == 1
    else 2 <= d <= n && n % d == 0 && NoFactorBelow(n, d)
  }

  /** `m` has no factor in common with 30, the product of the first three
      primes. */
  predicate CoprimeTo30(m: int)
  {
    m % 2 != 0 && m % 3 != 0 && m % 5 != 0
  }

  /** The offsets from i tried in each pass of the wheel loop. */
  const WheelOffsets: seq<int> := [0, 4, 6, 10, 12, 16, 22, 24]

  /** Adding a multiple of `d` does not change the remainder modulo `d`. */
  lemma {:induction false} AddMultipleMod(m: int, c: int, d: nat)
    requires d > 0
    ensures (m + d * c) % d == m % d
  {
    var a := m + d * c;
    var e := a / d - m / d - c;
    assert d * e == m % d - a % d by {
      assert a == d * (a / d) + a % d;
      assert m == d * (m / d) + m % d;
      assert d * e == d * (a / d) - d * (m / d) - d * c;
    }
    // A non-zero multiple of d is at least d in absolute value, but the
    // difference of two remainders lies strictly between -d and d.
    if e >= 1 {
    } else if e <= -1 {
    }
  }

  /** A multiple of `p` leaves no remainder modulo `p`. */
  lemma {:induction false} MultipleMod(p: nat, m: nat)
    requires p > 0
    ensures (p * m) % p == 0
  {
    AddMultipleMod(0, m, p);
  }

  /** Divisibility is transitive: a divisor of a divisor of `n` divides `n`. */
  lemma {:induction false} DivTransitive(n: nat, d: nat, k: nat)
    requires k > 0 && d > 0 && d % k == 0 && n % d == 0
    ensures n % k == 0
  {
    var e, c := d / k, n / d;
    assert d == k * e;
    assert n == d * c;
    assert n == k * (e * c) by {
      assert (k * e) * c == k * (e * c);
    }
    MultipleMod(k, e * c);
  }

  /** A number that `p` does not divide has no factor that `p` divides. */
  lemma {:induction false} NoMultipleDivides(n: nat, k: nat, p: nat)
    requires p >= 2 && k > 0 && k % p == 0 && n % p != 0
    ensures n % k != 0
  {
    if n % k == 0 {
      DivTransitive(n, k, p);
    }
  }

  /** Whether a number is coprime to 30 depends only on its residue. */
  lemma {:induction false} ResidueDecides(k: int, i: int, j: int)
    requires i % 30 == 7 && k == i + j
    ensures CoprimeTo30(k) <==> CoprimeTo30(7 + j)
  {
    var q := i / 30;
    var m := 7 + j;
    assert k == m + 2 * (15 * q) && k == m + 3 * (10 * q) && k == m + 5 * (6 * q);
    AddMultipleMod(m, 15 * q, 2);
    AddMultipleMod(m, 10 * q, 3);
    AddMultipleMod(m, 6 * q, 5);
  }

  /** The wheel: starting from 7, the offsets tried in one pass are exactly
      the residues modulo 30 that are coprime to 30, so the loop skips only
      numbers sharing a factor with 2, 3 or 5. */
  lemma {:induction false} WheelCoversCoprimeResidues(j: int)
    requires 0 <= j < 30
    ensures j in WheelOffsets <==> CoprimeTo30(7 + j)
  {
  }

  /** Numbers that share a factor with 30 cannot divide a number coprime to
      30. */
  lemma {:induction false} SkippedCannotDivide(n: nat, k: nat)
    requires CoprimeTo30(n) && k >= 2 && !CoprimeTo30(k)
    ensures n % k != 0
  {
    if k % 2 == 0 {
      NoMultipleDivides(n, k, 2);
    } else if k % 3 == 0 {
      NoMultipleDivides(n, k, 3);
    } else {
      NoMultipleDivides(n, k, 5);
    }
  }

  /** Between two tried offsets `a` and `b` of one pass every candidate is
      skipped by the wheel, so having ruled out `i + a` rules out everything
      below `i + b`. */
  lemma {:induction false} WheelGap(n: nat, i: int, a: int, b: int)
    requires CoprimeTo30(n) && i >= 7 && i % 30 == 7
    requires 0 <= a < b <= 30 && NoFactorBelow(n, i + a) && n % (i + a) != 0
    requires forall j :: 0 <= j < 30 && a < j < b ==> j !in WheelOffsets
    ensures NoFactorBelow(n, i + b)
  {
    forall k | i + a < k < i + b
      ensures n % k != 0
    {
      var j := k - i;
      WheelCoversCoprimeResidues(j);
      ResidueDecides(k, i, j);
      SkippedCannotDivide(n, k);
    }
  }

  /** A tried candidate of the current pass stays below `n`. */
  lemma {:induction false} CandidateInRange(i: int, n: nat)
    requires i >= 7 && i * i <= n
    ensures i + 24 <= n
  {
    assert i * i >= 7 * i;
  }

  /** Products are monotone in both (non-negative) factors. */
  lemma {:induction false} MulMonotone(a: nat, b: nat, c: nat, d: nat)
    requires a <= c && b <= d
    ensures a * b <= c * d
  {
    assert a * b <= c * b;
    assert c * b <= c * d;
  }

  /** A factor `k` of `n` with k < n has a cofactor of at least 2 that also
      divides `n`. */
  lemma {:induction false} Cofactor(n: nat, k: nat) returns (q: nat)
    requires 2 <= k < n && n % k == 0
    ensures q >= 2 && n == k * q && n % q == 0
  {
    q := n / k;
    assert n == k * q;
    assert n == q * k;
    MultipleMod(q, k);
  }

  /** If no factor lies below `i` and i * i exceeds `n`, then `n` has no
      factor below itself: a factor k >= i would have a cofactor below `i`. */
  lemma {:induction false} NoSmallFactorMeansPrime(n: nat, i: nat)
    requires n >= 2 && i >= 2 && i * i > n && NoFactorBelow(n, i)
    ensures NoFactorBelow(n, n)
  {
    forall k | i <= k < n
      ensures n % k != 0
    {
      if n % k == 0 {
        var q := Cofactor(n, k);
        if q >= i {
          MulMonotone(i, i, k, q);
        }
      }
    }
  }

  /** One pass of the wheel loop: the candidates i, i + 4, i + 6, i + 10,
      i + 12, i + 16, i + 22 and i + 24 are tried in that order, and the
      first one dividing `n` is returned. When none does, no number below
      i + 30 divides `n`. */
  method WheelPass(n: nat, i: int) returns (found: bool, d: nat)
    requires CoprimeTo30(n) && i >= 7 && i % 30 == 7 && i + 24 <= n
    requires NoFactorBelow(n, i)
    ensures found ==> IsLeastFactor(n, d)
    ensures !found ==> NoFactorBelow(n, i + 30)
  {
    if n % i == 0 {
      return true, i;
    }
    WheelGap(n, i, 0, 4);
    if n % (i + 4) == 0 {
      return true, i + 4;
    }
    WheelGap(n, i, 4, 6);
    if n % (i + 6) == 0 {
      return true, i + 6;
    }
    WheelGap(n, i, 6, 10);
    if n % (i + 10) == 0 {
      return true, i + 10;
    }
    WheelGap(n, i, 10, 12);
    if n % (i + 12) == 0 {
      return true, i + 12;
    }
    WheelGap(n, i, 12, 16);
    if n % (i + 16) == 0 {
      return true, i + 16;
    }
    WheelGap(n, i, 16, 22);
    if n % (i + 22) == 0 {
      return true, i + 22;
    }
    WheelGap(n, i, 22, 24);
    if n % (i + 24) == 0 {
      return true, i + 24;
    }
    WheelGap(n, i, 24, 30);
    return false, 0;
  }

  /** For a natural number, the guard `n * n < 2` of the JavaScript
      `Primes.leastFactor` means `n < 2`. */
  lemma {:induction false} SquareBelowTwo(n: nat)
    ensures n * n < 2 <==> n < 2
  {
    if n >= 2 {
      MulMonotone(2, 2, n, n);
    }
  }

  /** An odd number that 3 does not divide has no factor below 5, so 5 is
      its least factor when 5 divides it. */
  lemma {:induction false} NoFactorBelowFive(n: nat)
    requires n % 2 != 0 && n % 3 != 0
    ensures NoFactorBelow(n, 5)
  {
    forall k | 2 <= k < 5
      ensures n % k != 0
    {
      if k == 4 {
        NoMultipleDivides(n, k, 2);
      }
    }
  }

  /** A number that 2, 3 and 5 do not divide has no factor below 7. */
  lemma {:induction false} NoFactorBelowSeven(n: nat)
    requires n % 2 != 0 && n % 3 != 0 && n % 5 != 0
    ensures NoFactorBelow(n, 7)
  {
    NoFactorBelowFive(n);
    NoMultipleDivides(n, 6, 2);
  }

  /** The least factor, by the algorithm of the JavaScript
      `Primes.leastFactor`: 0 and 1 answer themselves, then 2, 3 and 5 are
      tried, then a 2-3-5 wheel from 7 while the candidate does not exceed
      the square root; a number with no factor found is its own least
      factor. */
  method LeastFactor(n: nat) returns (d: nat)
    ensures IsLeastFactor(n, d)
  {
    if n == 0 {
      return 0;
    }
    SquareBelowTwo(n);
    if n * n < 2 {
      return 1;
    }
    if n % 2 == 0 {
      return 2;
    }
    if n % 3 == 0 {
      return 3;
    }
    NoFactorBelowFive(n);
    if n % 5 == 0 {
      return 5;
    }
    NoFactorBelowSeven(n);
    var i := 7;
    while i * i <= n
      invariant i >= 7 && i % 30 == 7
      invariant NoFactorBelow(n, i)
    {
      CandidateInRange(i, n);
      var found, f := WheelPass(n, i);
      if found {
        return f;
      }
      i := i + 30;
    }
    NoSmallFactorMeansPrime(n, i);
    return n;
  }

  /** The primality test: numbers below 2 are not prime, and otherwise a
      number is prime exactly when it is its own least factor. */
  method IsPrime(n: nat) returns (b: bool)
    ensures b <==> Prime(n)
  {
    if n < 2 {
      return false;
    }
    var d := LeastFactor(n);
    return n == d;
  }

  /** The least factor is unique, so `IsLeastFactor` pins down the result of
      `LeastFactor` completely. */
  lemma {:induction false} LeastFactorUnique(n: nat, d1: nat, d2: nat)
    requires IsLeastFactor(n, d1) && IsLeastFactor(n, d2)
    ensures d1 == d2
  {
    if n >= 2 {
      assert n % d1 == 0 && n % d2 == 0;
    }
  }

  /** A number is prime exactly when it is at least 2 and its own least
      factor. */
  lemma {:induction false} PrimeIffOwnLeastFactor(n: nat)
    requires n >= 2
    ensures Prime(n) <==> IsLeastFactor(n, n)
  {
  }

  /** The least factor of a number of at least 2 is prime. */
  lemma {:induction false} LeastFactorIsPrime(n: nat, d: nat)
    requires n >= 2 && IsLeastFactor(n, d)
    ensures Prime(d)
  {
    forall k | 2 <= k < d
      ensures d % k != 0
    {
      if d % k == 0 {
        DivTransitive(n, d, k);
      }
    }
  }

  /** Worked values: 49 = 7 * 7 and 97 is prime. */
  lemma {:induction false} LeastFactorExamples()
    ensures IsLeastFactor(49, 7)
    ensures IsLeastFactor(97, 97)
    ensures IsLeastFactor(0, 0) && IsLeastFactor(1, 1)
  {
    assert NoFactorBelow(97, 10);
    NoSmallFactorMeansPrime(97, 10);
  }

  /** The algorithm on the sample inputs: `LeastFactor` answers 7 for 49,
      97 for 97, 0 for 0 and 1 for 1. */
  method LeastFactorSamples() returns (f49: nat, f97: nat, f0: nat, f1: nat)
    ensures f49 == 7 && f97 == 97 && f0 == 0 && f1 == 1
  {
    LeastFactorExamples();
    f49 := LeastFactor(49);
    LeastFactorUnique(49, f49, 7);
    f97 := LeastFactor(97);
    LeastFactorUnique(97, f97, 97);
    f0 := LeastFactor(0);
    f1 := LeastFactor(1);
  }

  /** The primality test on sample inputs: 0, 1 and 49 are not prime; 2 and
      97 are. */
  method IsPrimeSamples() returns (p0: bool, p1: bool, p2: bool, p49: bool, p97: bool)
    ensures !p0 && !p1 && p2 && !p49 && p97
  {
    LeastFactorExamples();
    p0 := IsPrime(0);
    p1 := IsPrime(1);
    p2 := IsPrime(2);
    p49 := IsPrime(49);
    assert 49 % 7 == 0;
    p97 := IsPrime(97);
    PrimeIffOwnLeastFactor(97);
  }
}

=== FILE: run_lengths.dfy ===
/** The run-length description of the spiral: after CENTER come maximal runs
    of equal directions of lengths 1, 1, 2, 2, 3, 3, ... cycling through LEFT,
    UP, RIGHT, DOWN. This module states that description independently of
    the walker and proves that the walker produces exactly it. */
module RunLengths {
  import opened Directions

  /** The direction of run `r` (counting from 0). */
  function RunDir(r: nat): Dir
  {
    match r % 4
    case 0 => Left
    case 1 => Up
    case 2 => Right
    case _ => Down
  }

  /** The length of run `r`: two runs of each length 1, 2, 3, ... */
  function RunLen(r: nat): nat
  {
    r / 2 + 1
  }

  function Repeat(d: Dir, n: nat): (ds: seq<Dir>)
    ensures |ds| == n && forall i :: 0 <= i < n ==> ds[i] == d
  {
    seq(n, _ => d)
  }

  /** The number of directions in the first `r` runs. */
  function Start(r: nat): (n: nat)
    ensures n >= r
  {
    if r == 0 then 0 else Start(r - 1) + RunLen(r - 1)
  }

  /** Run `r'` = r + 1 starts where run `r` ends. Like the other step lemmas
      here, it takes the successor as a parameter, which keeps the
      verifier from unfolding `Start` on a new term. */
  lemma {:induction false} StartStep(r: nat, r': nat)
    requires r' == r + 1
    ensures Start(r') == Start(r) + RunLen(r)
  {
  }

  /** The concatenation of the first `R` runs. */
  function Runs(R: nat): (ds: seq<Dir>)
    ensures |ds| == Start(R)
  {
    if R == 0 then [] else Runs(R - 1) + Repeat(RunDir(R - 1), RunLen(R - 1))
  }

  /** The first `n` directions of the run-length description. */
  function Reference(n: nat): (ds: seq<Dir>)
    ensures |ds| == n
  {
    ([Center] + Runs(n))[..n]
  }

  /** Adjacent runs have different directions, so each run is maximal, and
      the lengths grow by one after every second run. */
  lemma {:induction false} RunsAreMaximal(r: nat)
    ensures RunDir(r) != RunDir(r + 1)
    ensures RunLen(r + 1) == RunLen(r) + r % 2
  {
  }

  /** Element `s` of run `r` sits at index Start(r) + s of every longer
      concatenation. */
  lemma {:induction false} RunsIndex(R: nat, r: nat, s: nat)
    requires r < R && s < RunLen(r)
    ensures Start(r) + s < Start(R)
    ensures Runs(R)[Start(r) + s] == RunDir(r)
    decreases R
  {
    var prefix, run := Runs(R - 1), Repeat(RunDir(R - 1), RunLen(R - 1));
    assert Runs(R) == prefix + run;
    if r < R - 1 {
      RunsIndex(R - 1, r, s);
      assert (prefix + run)[Start(r) + s] == prefix[Start(r) + s];
    } else {
      assert (prefix + run)[Start(r) + s] == run[s];
    }
  }

  /** Later runs start later. */
  lemma {:induction false} StartMonotone(a: nat, b: nat)
    requires a <= b
    ensures Start(a) <= Start(b)
    decreases b
  {
    if a < b {
      StartMonotone(a, b - 1);
    }
  }

  /** A position in the run-length description: the run and the offset
      inside it. */
  datatype RunPos = RunPos(run: nat, offset: nat)

  /** The run and offset of direction `i` after CENTER, found by counting
      through the runs one direction at a time. */
  function RunAt(i: nat): (p: RunPos)
    ensures p.offset < RunLen(p.run) && i == Start(p.run) + p.offset
  {
    if i == 0 then RunPos(0, 0)
    else
      var p := RunAt(i - 1);
      if p.offset + 1 < RunLen(p.run) then RunPos(p.run, p.offset + 1)
      else
        StartStep(p.run, p.run + 1);
        RunPos(p.run + 1, 0)
  }

  /** Counting one direction further either stays in the run or starts the
      next one. */
  lemma {:induction false} RunAtNext(h: nat, i: nat)
    requires i == h + 1
    ensures RunAt(h).offset + 1 < RunLen(RunAt(h).run) ==>
              RunAt(i) == RunPos(RunAt(h).run, RunAt(h).offset + 1)
    ensures RunAt(h).offset + 1 >= RunLen(RunAt(h).run) ==>
              RunAt(i) == RunPos(RunAt(h).run + 1, 0)
  {
    assert i != 0;
  }

  /** The direction of call `k` according to the run-length description. */
  function RefDir(k: nat): (d: Dir)
    ensures d == Center <==> k == 0
  {
    if k == 0 then Center else RunDir(RunAt(k - 1).run)
  }

  /** Every index of the concatenation carries the direction of the run
      that `RunAt` places it in. */
  lemma {:induction false} RunOf(R: nat, i: nat)
    requires i < Start(R)
    ensures RunAt(i).run < R
    ensures Runs(R)[i] == RunDir(RunAt(i).run)
  {
    var p := RunAt(i);
    if p.run >= R {
      StartMonotone(R, p.run);
    }
    RunsIndex(R, p.run, p.offset);
  }

  /** The walker is inside run `r` with `c` repetitions still to come after
      the current call: the arm of the run is active (the left arm for runs
      0 and 1 of every four), its multiplier is the run length, and its queue
      is whole for the first run of its turn and holds one direction for the
      second. */
  predicate InRun(w: Walker, r: nat, c: int)
  {
    && !w.isInitial
    && (w.isLeft <==> r % 4 < 2)
    && Active(w).multiplier == RunLen(r)
    && Active(w).count == c
    && |Active(w).dirs| == 2 - r % 2
  }

  /** Inside run `r` each call returns the direction of run `r`. */
  lemma {:induction false} InRunDir(w: Walker, r: nat, c: int)
    requires Valid(w) && InRun(w, r, c)
    ensures Step(w).dir == RunDir(r)
  {
    var a := Active(w);
    assert a.store == if w.isLeft then LeftDirs else RightDirs;
    if r % 2 == 0 {
      assert a.dirs == a.store;
    } else {
      assert a.dirs == [a.store[1]];
    }
  }

  /** While repetitions of the run remain, a call only counts down. */
  lemma {:induction false} InRunCountDown(w: Walker, r: nat, c: int, c': int)
    requires Valid(w) && InRun(w, r, c) && c > 0 && c' == c - 1
    ensures InRun(Step(w).next, r, c')
  {
  }

  /** The last call of a run leads to the first call of the next run: the
      same arm pops its queue, or the other arm takes over with a multiplier
      one larger. */
  lemma {:induction false} InRunHandOver(w: Walker, r: nat, r': nat, c': int)
    requires Valid(w) && InRun(w, r, 0) && r' == r + 1 && c' == RunLen(r') - 1
    ensures InRun(Step(w).next, r', c')
  {
    if r % 2 == 0 {
      InRunPop(w, r, r', c');
    } else {
      InRunTakeOver(w, r, r', c');
    }
  }

  /** After the first run of its turn the active arm pops its queue and
      keeps its multiplier. */
  lemma {:induction false} InRunPop(w: Walker, r: nat, r': nat, c': int)
    requires Valid(w) && InRun(w, r, 0) && r % 2 == 0 && r' == r + 1 && c' == RunLen(r') - 1
    ensures InRun(Step(w).next, r', c')
  {
    SecondRunSameLength(r, r');
    SecondRunSameArm(r, r');
  }

  /** The run after an even run has the same length. */
  lemma {:induction false} SecondRunSameLength(r: nat, r': nat)
    requires r % 2 == 0 && r' == r + 1
    ensures RunLen(r') == RunLen(r)
  {
  }

  /** The run after an even run belongs to the same arm. */
  lemma {:induction false} SecondRunSameArm(r: nat, r': nat)
    requires r % 2 == 0 && r' == r + 1
    ensures r' % 4 < 2 <==> r % 4 < 2
  {
    var q, m := r / 4, r % 4;
    assert r == 4 * q + m && 0 <= m < 4;
    assert m != 1 && m != 3;
    assert r' == 4 * q + (m + 1);
  }

  /** The run after an odd run belongs to the other arm. */
  lemma {:induction false} NextTurnOtherArm(r: nat, r': nat)
    requires r % 2 == 1 && r' == r + 1
    ensures r' % 4 < 2 <==> !(r % 4 < 2)
  {
    var q, m := r / 4, r % 4;
    assert r == 4 * q + m && 0 <= m < 4;
    assert m != 0 && m != 2;
    assert r' == 4 * q + (m + 1);
  }

  /** After the second run of its turn the active arm refills and the other
      arm, waiting with a full queue, takes over. */
  lemma {:induction false} InRunTakeOver(w: Walker, r: nat, r': nat, c': int)
    requires Valid(w) && InRun(w, r, 0) && r % 2 == 1 && r' == r + 1 && c' == RunLen(r') - 1
    ensures InRun(Step(w).next, r', c')
  {
    assert RunLen(r') == RunLen(r) + 1;
    NextTurnOtherArm(r, r');
    assert |ArmOf(w, !w.isLeft).dirs| == 2;
  }

  /** The first call after CENTER is the first call of run 0. */
  lemma {:induction false} FirstRunStart()
    ensures InRun(StateAt(1), 0, 0)
  {
    assert StateAt(1) == Step(Init()).next;
  }

  /** A call with repetitions left stays in the run and counts down. */
  lemma {:induction false} AdvanceWithin(k: nat, k1: nat, r: nat, c: int, c': int)
    requires k1 == k + 1 && InRun(StateAt(k), r, c) && c > 0 && c' == c - 1
    ensures InRun(StateAt(k1), r, c')
  {
    StateAtStep(k, k1);
    InRunCountDown(StateAt(k), r, c, c');
  }

  /** The last call of a run moves the walker to the next run. */
  lemma {:induction false} AdvanceAcross(k: nat, k1: nat, r: nat, r': nat, c': int)
    requires k1 == k + 1 && InRun(StateAt(k), r, 0) && r' == r + 1 && c' == RunLen(r') - 1
    ensures InRun(StateAt(k1), r', c')
  {
    StateAtStep(k, k1);
    InRunHandOver(StateAt(k), r, r', c');
  }

  /** Call k = 1 + Start(r) + s is call `s` of run `r`, with c = RunLen(r) - 1 - s
      repetitions still to come. */
  lemma {:induction false} CallInRun(r: nat, s: nat, k: nat, c: int)
    requires s < RunLen(r) && k == 1 + Start(r) + s && c == RunLen(r) - 1 - s
    ensures InRun(StateAt(k), r, c)
    decreases k, 1
  {
    if s > 0 {
      CallWithinRun(r, s, k, c);
    } else if r == 0 {
      FirstRunStart();
    } else {
      CallStartsRun(r, k, c);
    }
  }

  /** A later call of a run follows the call before it in the same run. */
  lemma {:induction false} CallWithinRun(r: nat, s: nat, k: nat, c: int)
    requires 0 < s < RunLen(r) && k == 1 + Start(r) + s && c == RunLen(r) - 1 - s
    ensures InRun(StateAt(k), r, c)
    decreases k, 0
  {
    CallInRun(r, s - 1, k - 1, c + 1);
    AdvanceWithin(k - 1, k, r, c + 1, c);
  }

  /** The first call of a later run follows the last call of the run before
      it. */
  lemma {:induction false} CallStartsRun(r: nat, k: nat, c: int)
    requires 0 < r && k == 1 + Start(r) && c == RunLen(r) - 1
    ensures InRun(StateAt(k), r, c)
    decreases k, 0
  {
    var q := r - 1;
    StartStep(q, r);
    CallInRun(q, RunLen(q) - 1, k - 1, 0);
    AdvanceAcross(k - 1, k, q, r, c);
  }

  /** Every call of run `r` returns the direction of run `r`. */
  lemma {:induction false} RunDirs(r: nat, s: nat, k: nat)
    requires s < RunLen(r) && k == 1 + Start(r) + s
    ensures DirAt(k) == RunDir(r)
  {
    CallInRun(r, s, k, RunLen(r) - 1 - s);
    StateAtValid(k);
    InRunDir(StateAt(k), r, RunLen(r) - 1 - s);
  }

  /** The walker returns the direction the run-length description gives
      for every call. */
  lemma {:induction false} WalkerFollowsRuns(k: nat)
    ensures DirAt(k) == RefDir(k)
  {
    if k > 0 {
      var p := RunAt(k - 1);
      RunDirs(p.run, p.offset, k);
    }
  }

  /** Call `k` of the walker returns element `k` of the description. */
  lemma {:induction false} WalkAt(n: nat, k: nat)
    requires k < n
    ensures DirAt(k) == ([Center] + Runs(n))[k]
  {
    if k > 0 {
      WalkAtRun(n, k - 1, k);
    } else {
      assert ([Center] + Runs(n))[k] == Center;
    }
  }

  /** Call k = j + 1 returns element `j` of the runs. */
  lemma {:induction false} WalkAtRun(n: nat, j: nat, k: nat)
    requires k == j + 1 && k < n
    ensures DirAt(k) == ([Center] + Runs(n))[k]
  {
    WalkerFollowsRuns(k);
    RunOf(n, j);
    assert ([Center] + Runs(n))[k] == Runs(n)[j];
  }

  /** The walker emits exactly the run-length description. */
  lemma {:induction false} WalkIsReference(n: nat)
    ensures Walk(n) == Reference(n)
  {
    forall k | 0 <= k < n
      ensures Walk(n)[k] == Reference(n)[k]
    {
      WalkAt(n, k);
    }
  }

  /** The directions of runs 0 to 2. */
  lemma {:induction false} EarlyRuns()
    ensures DirAt(1) == Left && DirAt(2) == Up
    ensures DirAt(3) == Right && DirAt(4) == Right
  {
    RunDirs(0, 0, 1);
    RunDirs(1, 0, 2);
    RunDirs(2, 0, 3);
    RunDirs(2, 1, 4);
  }

  /** The directions of runs 3 to 5. */
  lemma {:induction false} LaterRuns()
    ensures DirAt(5) == Down && DirAt(6) == Down
    ensures DirAt(7) == Left && DirAt(8) == Left && DirAt(9) == Left
    ensures DirAt(10) == Up && DirAt(11) == Up && DirAt(12) == Up
  {
    RunDirs(3, 0, 5);
    RunDirs(3, 1, 6);
    RunDirs(4, 0, 7);
    RunDirs(4, 1, 8);
    RunDirs(4, 2, 9);
    RunDirs(5, 0, 10);
    RunDirs(5, 1, 11);
    RunDirs(5, 2, 12);
  }

  /** The first thirteen calls: CENTER, then runs 0 to 5 of lengths
      1, 1, 2, 2, 3, 3. */
  lemma {:induction false} FirstThirteen()
    ensures Walk(13) == [Center, Left, Up, Right, Right, Down, Down, Left, Left, Left, Up, Up, Up]
  {
    EarlyRuns();
    LaterRuns();
  }
}

=== FILE: spiral.dfy ===
/** The drawing loop of the spiral generator, with the canvas left out: for
    each number from 0 up to the limit it takes the next direction from a
    fresh walker, moves the current position by the rectangle size against
    that direction's vector, and records the number, the new position and
    whether the number is prime. */
module Spiral {
  import opened Directions
  import opened RunLengths
  import opened Lattice
  import opened Primes

  /** One drawn rectangle: its number, its top-left corner and its colour
      (prime or not). */
  datatype Event = Event(number: nat, pos: Point, isPrime: bool)

  /** The position of `cell` for a spiral centred at `center` with the
      given rectangle size. Every move subtracts the scaled vector, so the
      lattice is mirrored on both axes. */
  function Place(center: Point, size: int, cell: Point): Point
  {
    Point(center.x - size * cell.x, center.y - size * cell.y)
  }

  /** `q` is one rectangle away from `p` along exactly one axis. */
  predicate SizeStep(p: Point, q: Point, size: int)
  {
    || (p.x == q.x && (q.y == p.y + size || q.y == p.y - size))
    || (p.y == q.y && (q.x == p.x + size || q.x == p.x - size))
  }

  /** The frame of the next rectangle: the current position minus the
      rectangle size times the vector of the direction. CENTER stays put;
      every other direction moves one rectangle along one axis against its
      vector: LEFT decreases x, RIGHT increases x, UP decreases y and DOWN
      increases y. */
  function Move(pos: Point, size: int, d: Dir): (p: Point)
    ensures d == Center ==> p == pos
    ensures d != Center ==> SizeStep(pos, p, size)
    ensures d == Left || d == Right ==> p.y == pos.y
    ensures d == Up || d == Down ==> p.x == pos.x
    ensures d == Left ==> p == Point(pos.x - size, pos.y)
    ensures d == Right ==> p == Point(pos.x + size, pos.y)
    ensures d == Up ==> p == Point(pos.x, pos.y - size)
    ensures d == Down ==> p == Point(pos.x, pos.y + size)
  {
    var v := Vector(d);
    Point(pos.x - size * v.x, pos.y - size * v.y)
  }

  /** Moving from the place of `cell` in direction `d` reaches the place of
      the neighbouring cell in that direction. */
  lemma {:induction false} PlaceMove(center: Point, size: int, cell: Point, next: Point, d: Dir)
    requires Moves(cell, next, d)
    ensures Move(Place(center, size, cell), size, d) == Place(center, size, next)
  {
    var v := Vector(d);
    Distribute(size, cell.x, v.x);
    Distribute(size, cell.y, v.y);
  }

  lemma {:induction false} Distribute(s: int, a: int, b: int)
    ensures s * (a + b) == s * a + s * b
  {
  }

  /** With a non-zero size, different cells get different places. */
  lemma {:induction false} PlaceInjective(center: Point, size: int, a: Point, b: Point)
    requires size != 0 && a != b
    ensures Place(center, size, a) != Place(center, size, b)
  {
    if a.x != b.x {
      assert size * a.x != size * b.x by {
        assert size * a.x - size * b.x == size * (a.x - b.x);
      }
    } else {
      assert size * a.y != size * b.y by {
        assert size * a.y - size * b.y == size * (a.y - b.y);
      }
    }
  }

  /** The places of neighbouring cells are one rectangle apart. */
  lemma {:induction false} PlaceStep(center: Point, size: int, a: Point, b: Point)
    requires UnitStep(a, b)
    ensures SizeStep(Place(center, size, a), Place(center, size, b), size)
  {
    if a.x == b.x {
      assert size * b.y == size * a.y + size || size * b.y == size * a.y - size;
    } else {
      assert size * b.x == size * a.x + size || size * b.x == size * a.x - size;
    }
  }

  /** The rectangle for number `k` is framed one step from the previous
      one (from the center for k = 0) in the direction the walker returns
      for call `k`, which puts it at the place of cell `k`. */
  lemma {:induction false} MoveToCell(center: Point, size: int, k: nat, pos: Point, d: Dir)
    requires d == DirAt(k)
    requires k == 0 ==> pos == center
    requires k > 0 ==> pos == Place(center, size, CellAt(k - 1))
    ensures Move(pos, size, d) == Place(center, size, CellAt(k))
  {
    if k == 0 {
      MoveFromCenter(center, size, pos, d);
    } else {
      MoveFromCell(center, size, k - 1, k, pos, d);
    }
  }

  lemma {:induction false} MoveFromCenter(center: Point, size: int, pos: Point, d: Dir)
    requires d == DirAt(0) && pos == center
    ensures Move(pos, size, d) == Place(center, size, CellAt(0))
  {
    assert Vector(d) == Point(0, 0);
    assert CellAt(0) == Point(0, 0);
  }

  lemma {:induction false} MoveFromCell(center: Point, size: int, j: nat, k: nat, pos: Point, d: Dir)
    requires k == j + 1 && d == DirAt(k) && pos == Place(center, size, CellAt(j))
    ensures Move(pos, size, d) == Place(center, size, CellAt(k))
  {
    WalkerFollowsRuns(k);
    assert RefDir(k) == RunDir(RunAt(j).run);
    CellStep(j, k);
    PlaceMove(center, size, CellAt(j), CellAt(k), d);
  }

  /** What the drawing loop records for number `i`: the number, the place
      of cell `i` of the walk and whether `i` is prime. */
  function Drawn(center: Point, size: int, i: nat): Event
  {
    Event(i, Place(center, size, CellAt(i)), Prime(i))
  }

  /** The first rectangle is drawn at the center. */
  lemma {:induction false} FirstAtCenter(center: Point, size: int)
    ensures Drawn(center, size, 0).pos == center
  {
    assert CellAt(0) == Point(0, 0);
  }

  /** Every rectangle after the first is one rectangle from its predecessor
      along one axis. */
  lemma {:induction false} DrawnAdjacent(center: Point, size: int, i: nat, j: nat)
    requires i > 0 && j == i - 1
    ensures SizeStep(Drawn(center, size, j).pos, Drawn(center, size, i).pos, size)
  {
    CellSteps(i);
    PlaceStep(center, size, CellAt(j), CellAt(i));
  }

  /** With a non-zero size no two rectangles share a place. */
  lemma {:induction false} DrawnDistinct(center: Point, size: int, i: nat, j: nat)
    requires size != 0 && i != j
    ensures Drawn(center, size, i).pos != Drawn(center, size, j).pos
  {
    CellsDistinct(i, j);
    PlaceInjective(center, size, CellAt(i), CellAt(j));
  }

  /** One call of the walker inside the drawing loop: the state before call
      `k` yields the state before call k + 1 and the direction of call `k`. */
  method NextDirection(w: Walker, ghost k: nat) returns (next: Walker, d: Dir)
    requires w == StateAt(k)
    ensures next == StateAt(k + 1) && d == DirAt(k)
  {
    StateAtStep(k, k + 1);
    var r := Step(w);
    return r.next, r.dir;
  }

  /** One rectangle: frame it one size-step from `pos` against the vector
      of `dir`, and colour it by the primality test of its number. */
  method DrawRectangle(number: nat, dir: Dir, pos: Point, size: int) returns (e: Event)
    ensures e.number == number && e.pos == Move(pos, size, dir)
    ensures e.isPrime <==> Prime(number)
  {
    var newPos := Move(pos, size, dir);
    var prime := IsPrime(number);
    e := Event(number, newPos, prime);
  }

  /** The loop state before number `n` is drawn: the walker has made `n`
      calls, and the position is the center for n = 0 and the place of
      rectangle n - 1 after that. */
  predicate Ready(center: Point, size: int, n: nat, walker: Walker, pos: Point)
  {
    && walker == StateAt(n)
    && pos == (if n == 0 then center else Place(center, size, CellAt(n - 1)))
  }

  /** One pass of the drawing loop: the walker's next direction, and the
      rectangle framed one size-step from the previous one against that
      direction's vector. It is the rectangle recorded for `number`. */
  method DrawNext(center: Point, size: int, number: nat, walker: Walker, pos: Point)
    returns (next: Walker, e: Event)
    requires Ready(center, size, number, walker, pos)
    ensures Ready(center, size, number + 1, next, e.pos)
    ensures e == Drawn(center, size, number)
  {
    var dir;
    next, dir := NextDirection(walker, number);
    MoveToCell(center, size, number, pos, dir);
    e := DrawRectangle(number, dir, pos, size);
  }

  /** Recording the rectangle for the next number keeps the record
      complete. */
  lemma {:induction false} DrawnAppend(center: Point, size: int, es: seq<Event>, e: Event)
    requires forall i :: 0 <= i < |es| ==> es[i] == Drawn(center, size, i)
    requires e == Drawn(center, size, |es|)
    ensures forall i :: 0 <= i < |es| + 1 ==> (es + [e])[i] == Drawn(center, size, i)
  {
  }

  /** The drawing loop: for every number below the limit, take the next
      direction, frame the rectangle one size-step against its vector from
      the previous one, and colour it by the primality test. A limit of zero
      or less draws nothing. */
  method DrawSpiral(limit: int, center: Point, size: int) returns (events: seq<Event>)
    ensures |events| == if limit > 0 then limit else 0
    ensures forall i :: 0 <= i < |events| ==> events[i] == Drawn(center, size, i)
  {
    var walker := Init();
    var pos := center;
    events := [];
    var number: nat := 0;
    while number < limit
      invariant (number <= limit || number == 0) && |events| == number
      invariant Ready(center, size, number, walker, pos)
      invariant forall i :: 0 <= i < number ==> events[i] == Drawn(center, size, i)
    {
      var event;
      walker, event := DrawNext(center, size, number, walker, pos);
      DrawnAppend(center, size, events, event);
      events := events + [event];
      pos := event.pos;
      number := number + 1;
    }
  }

  /** The drawn spiral starts at the center, moves one rectangle along one
      axis at a time, and, for a non-zero size, never draws twice at the
      same place. */
  lemma {:induction false} SpiralShape(center: Point, size: int, events: seq<Event>)
    requires forall i :: 0 <= i < |events| ==> events[i] == Drawn(center, size, i)
    ensures |events| > 0 ==> events[0].pos == center
    ensures forall i :: 0 < i < |events| ==> SizeStep(events[i - 1].pos, events[i].pos, size)
    ensures size != 0 ==>
              forall i, j :: 0 <= i < j < |events| ==> events[i].pos != events[j].pos
  {
    if |events| > 0 {
      FirstAtCenter(center, size);
    }
    forall i | 0 < i < |events|
      ensures SizeStep(events[i - 1].pos, events[i].pos, size)
    {
      DrawnAdjacent(center, size, i, i - 1);
    }
    if size != 0 {
      forall i, j | 0 <= i < j < |events|
        ensures events[i].pos != events[j].pos
      {
        DrawnDistinct(center, size, i, j);
      }
    }
  }
}
